=== FILE: README.md ===
# MyCalc calculator core in Dafny

This project models the two core components of the MyCalc iOS calculator and proves
properties of them.

- `CalculatorBrain` is the engine behind a calculator that takes one key press at a time.
  It holds an accumulator and at most one pending binary operation. It also holds a flag
  saying that an operand has been entered and not yet taken by a binary operation, a
  partial-result flag, and a `description` string that only grows until a reset. At
  start-up it fills a dictionary of seventeen known operations. It then moves its state with `setOperand`, `performOperation`
  (constants, unary operations, binary operations and `=`), the private
  `executePendingOperation`, and `reset`.
- `BinaryTree<T>` is a generic recursive tree. It has a node count, a textual
  description, three traversals, and the two calls `addNode` and `updateValue`, which
  only return a success flag.

Files:

- `calculator_spec.dfy`, module `CalculatorSpec`: the operations, the operator table, and
  the calculator state as a value. Each transition is a function of the old state. The
  lemmas state each transition rule and the invariants over any sequence of key presses.
- `calculator_brain.dfy`, module `Calculator`: the class `CalculatorBrain`, whose fields
  are updated in place. Each key-press method (`SetOperand`, `PerformOperation`,
  `ExecutePendingOperation`, `Reset`) is proved to change `Snapshot()` exactly as the
  matching `CalculatorSpec` function says, and to keep the operator table (`Valid()`).
  The constructor fills that table through `LearnOp`. `description` and
  `isPartialResult` are plain fields, readable as such; `result` is
  `CalculatorBrain.Result()`.
- `binary_tree.dfy`, module `BinaryTrees`: the tree as a datatype, with its recursive
  functions and lemmas.

Numbers are `real`. The floating-point closures are not given a meaning here: `*`, `/`,
`+`, `-`, `pow`, `sqrt`, `cos`, `sin`, `tan`, the sign change `-x`, the constants `M_PI`
and `M_E`, and the rendering `"\(Double)"` all come from a `Numerics` record passed to
the constructor. The derived closures are built from these exactly as the source builds
them: `pow(x, 1/y)`, `pow(x, 2)`, `pow(x, 3)` and `pow(x, 1/3)`.

Behaviour kept exactly as the code has it, including the surprising parts:

- Chaining captures the accumulator after the pending operation has been resolved as the
  new first operand. There is no operator precedence: `2 + 3 × 4 =` gives `(2 + 3) × 4`
  (`NoPrecedence`).
- Changing the operator before the second operand swaps only the combine function. The
  formatter of the first choice stays (`ChangedMindKeepsFormatter`).
- Only a binary operation that takes the operand, or `reset`, clears the new-operand
  flag; `=`, a constant and a unary operation leave it as it is. So a binary operation
  right after a constant does one of three things:
  - flag set: it takes the constant as its first operand, as in `5 π ×` and
    `2 + 3 = π ×` (`ConstantAfterOperandIsTaken`, `ConstantAfterResultIsTaken`);
  - flag clear and an operation pending: it replaces that operation and the constant is
    discarded, so `5 + π × 2 =` gives 5 × 2 (`ConstantDiscardedBySwap`);
  - flag clear and nothing pending: it is dropped, as in `π ×` after start-up and
    `5 + = π ×` (`ConstantIsNotAnOperand`, `ConstantDroppedAfterResolvedOperation`).
- `isPartialResult` is only ever assigned `false` (`NeverPartial`), even while an
  operation is pending (`PartialFlagIgnoresPending`), and `reset` does not touch it.
- The formatter registered for `tan` renders `cos(...)` (`TangentRendersCosine`).
- The engine keeps no log of key presses and has no precedence levels, no
  parenthesisation and no export, import or replay, so none of these is modelled.

## Model

| member | source | states |
|---|---|---|
| `CalculatorSpec.SymbolCount` | MyCalc/CalculatorBrain.swift:59-79 | the seventeen registered symbols are pairwise different, so none overwrites another |
| `CalculatorSpec.OperatorTableSymbols` | MyCalc/CalculatorBrain.swift:51-80 | the table built at start-up holds exactly the registered symbols and no other key |
| `CalculatorSpec.OperatorTableKeyedBySymbol` | MyCalc/CalculatorBrain.swift:29-41 | every operation except the two constants is keyed by its own description; "π" and "e" hold `M_PI` and `M_E` |
| `CalculatorSpec.TangentRendersCosine` | MyCalc/CalculatorBrain.swift:72 | the "tan" entry computes the tangent but its formatter renders `cos(x)` |
| `CalculatorSpec.ExecutePendingOperation` | MyCalc/CalculatorBrain.swift:122-133 | afterwards no operation is pending and the partial flag is false; the fresh-operand flag is kept and the description only grows |
| `CalculatorSpec.PerformOperation` | MyCalc/CalculatorBrain.swift:95-120 | no key press sets the partial-result flag, and the old description is always a prefix of the new one |
| `CalculatorSpec.SetOperandStep` | MyCalc/CalculatorBrain.swift:85-88 | the accumulator becomes the operand and the fresh-operand flag is set; the pending op, description and partial flag are unchanged |
| `CalculatorSpec.UnknownSymbolIsIgnored` | MyCalc/CalculatorBrain.swift:96 | a symbol outside the table changes no state |
| `CalculatorSpec.ConstantStep` | MyCalc/CalculatorBrain.swift:98-100 | π / e load their value and append the key plus a blank; the pending op, fresh-operand flag and partial flag stay |
| `CalculatorSpec.UnaryStep` | MyCalc/CalculatorBrain.swift:101-103 | the description gains the formatter applied to the old accumulator, then the accumulator becomes `f(old accumulator)`; nothing else changes |
| `CalculatorSpec.BinaryAfterOperand` | MyCalc/CalculatorBrain.swift:105-109 | after a fresh operand: the pending op is resolved first, then a new one opens with the resolved accumulator as first operand and this op's function and formatter, and the flag is cleared |
| `CalculatorSpec.BinaryChangedMind` | MyCalc/CalculatorBrain.swift:110-114 | without a fresh operand only the pending combine function changes (first operand, formatter, accumulator, description kept); with nothing pending nothing changes |
| `CalculatorSpec.EqualsStep` | MyCalc/CalculatorBrain.swift:116-117 | "=" resolves a pending op into accumulator and description; without one accumulator and description stay; the partial flag ends false either way |
| `CalculatorSpec.EqualsTwiceIsOnce` | MyCalc/CalculatorBrain.swift:116-133 | a second "=" is a no-op |
| `CalculatorSpec.ResetRestoresStartUp` | MyCalc/CalculatorBrain.swift:139-144 | reset gives accumulator 0, no pending op, flag false, description " " and keeps only the partial flag |
| `CalculatorSpec.DescriptionOnlyGrows` | MyCalc/CalculatorBrain.swift:85-133 | over any sequence of operands and operations without a reset, the old description is a prefix of the new one |
| `CalculatorSpec.DescriptionStartsWithBlank` | MyCalc/CalculatorBrain.swift:139-170 | from start-up, under any sequence of inputs including resets, the description begins with the blank that start-up and reset put there |
| `CalculatorSpec.NeverPartial` | MyCalc/CalculatorBrain.swift:132 | under any sequence of inputs the partial-result flag is true at the end only if it was true at the start |
| `CalculatorSpec.ResetForgetsHistory` | MyCalc/CalculatorBrain.swift:139-144 | after a reset the state depends on nothing entered before it, except the partial flag |
| `CalculatorSpec.NoPrecedence` | MyCalc/CalculatorBrain.swift:105-127 | `2 + 3 × 4 =` yields `(2 + 3) × 4`, and the description records each resolution followed by " =" |
| `CalculatorSpec.PartialFlagIgnoresPending` | MyCalc/CalculatorBrain.swift:105-109 | after `2 +` an operation is pending while the partial-result flag is false |
| `CalculatorSpec.ConstantIsNotAnOperand` | MyCalc/CalculatorBrain.swift:98-114 | right after start-up, in `π × 2 =` the × is dropped, because a constant leaves the fresh-operand flag false as it was, so the result is 2 and the description is " π " |
| `CalculatorSpec.ConstantAfterOperandIsTaken` | MyCalc/CalculatorBrain.swift:98-114 | in `5 π × 2 =` the flag set by 5 survives the constant, so the × takes π as its first operand and the result is `π × 2` with nothing pending |
| `CalculatorSpec.ConstantAfterResultIsTaken` | MyCalc/CalculatorBrain.swift:98-133 | after `2 + 3 =` the flag is still set, because `=` does not clear it, so `π ×` opens a pending multiplication whose first operand is π |
| `CalculatorSpec.ConstantDiscardedBySwap` | MyCalc/CalculatorBrain.swift:98-133 | in `5 + π × 2 =` the `+` clears the flag, so the × only swaps the pending combine function: π is discarded, the result is `5 × 2` with nothing pending, and the description renders `5 + 2 =` after " π " |
| `CalculatorSpec.ConstantDroppedAfterResolvedOperation` | MyCalc/CalculatorBrain.swift:98-133 | after `5 + =` the flag is clear and nothing is pending, so in `π ×` the × is dropped: nothing is pending, the accumulator is π and the flag stays clear |
| `CalculatorSpec.ChangedMindKeepsFormatter` | MyCalc/CalculatorBrain.swift:110-127 | `5 + − 3 =` yields `5 − 3` while the description still renders `5 + 3 =` |
| `Calculator.CalculatorBrain.constructor` | MyCalc/CalculatorBrain.swift:51-80 | registering the operations one by one yields exactly the operator table; the state is the start-up state |
| `Calculator.CalculatorBrain.LearnOp` | MyCalc/CalculatorBrain.swift:55-57 | the operation is stored under its own description |
| `Calculator.CalculatorBrain.SetOperand` | MyCalc/CalculatorBrain.swift:85-88 | the new state is `SetOperand(old state)`, so `Result()` is the operand afterwards |
| `Calculator.CalculatorBrain.PerformOperation` | MyCalc/CalculatorBrain.swift:95-120 | the new state is `PerformOperation(table, old state, symbol)` and the table is unchanged |
| `Calculator.CalculatorBrain.ExecutePendingOperation` | MyCalc/CalculatorBrain.swift:122-133 | the new state is `ExecutePendingOperation(old state)` |
| `Calculator.CalculatorBrain.Reset` | MyCalc/CalculatorBrain.swift:139-144 | the new state is `Reset(old state)` |
| `Calculator.NoPrecedenceClient` | MyCalc/CalculatorBrain.swift:146-150 | a caller driving the object through `2 + 3 × 4 =` reads `(2 + 3) × 4` from `result` |
| `BinaryTrees.Count` | MyCalc/BinaryTree.swift:28-37 | the count is zero exactly for the empty tree, so a node counts at least one |
| `BinaryTrees.DescriptionLength` | MyCalc/BinaryTree.swift:17-26 | the description is empty exactly for the empty tree; a node's starts with "Value: " and each node contributes at least thirty characters |
| `BinaryTrees.InOrderVisitsEveryNode` | MyCalc/BinaryTree.swift:63-69 | in-order visits as many values as the tree has nodes |
| `BinaryTrees.PreOrderSameVisits` | MyCalc/BinaryTree.swift:71-77 | pre-order visits the same multiset of values as in-order, one per node |
| `BinaryTrees.PostOrderSameVisits` | MyCalc/BinaryTree.swift:79-85 | post-order visits the same multiset of values as in-order, one per node |
| `BinaryTrees.AddNodeSucceedsIff` | MyCalc/BinaryTree.swift:39-51 | the flag is true iff the receiver is a node with an empty left or right child |
| `BinaryTrees.UpdateValueSucceedsIff` | MyCalc/BinaryTree.swift:53-60 | the flag is true iff the receiver is a node |
| `BinaryTrees.AddNodeLosesTheNode` | MyCalc/BinaryTree.swift:41-47 | on a leaf addNode reports success, yet the receiver stays one node where the reported insertion gives two |
| `BinaryTrees.UpdateValueKeepsOldValue` | MyCalc/BinaryTree.swift:55-57 | on a leaf updateValue reports success, yet the receiver keeps its old value |
| `BinaryTrees.InsertNode` | MyCalc/BinaryTree.swift:39-51 | same flag as addNode; on success the node fills the left slot if that is empty, otherwise the right slot, while the root value and the other child stay, so the count grows by the node's count and the in-order values gain the node's; on failure the tree is unchanged |
| `BinaryTrees.WithValue` | MyCalc/BinaryTree.swift:53-60 | same flag as updateValue; on success the root holds the new value and both children stay, so the in-order values become left, new value, right and the count is kept; on failure the tree is unchanged |

## Left out

- Floating-point semantics (IEEE rounding, NaN, infinities) of every arithmetic closure, of the sign change and of the constants: these are parameters over `real`.
- Signed zero: `real` has a single zero, so no value can stand for -0.0 apart from 0.0. In the source, `0` followed by `⁺/₋` leaves -0.0 in the accumulator, which renders as "-0.0"; here the accumulator becomes `negate(0.0)`, a `real`, and the model cannot hold a zero distinct from 0.0.
- The text produced by `"\(Double)"` and `"\(value)"`: this is the abstract `show` function.
- MyCalc/ViewController.swift, the UIKit controller (digit entry, sign toggle, backspace, label text, number parsing): UI plumbing outside the core.
- Swift `String` equality compares by canonical equivalence; here symbols are compared as sequences of code points.
- BinaryTrees.PreOrderSameVisits: "each node exactly once" is stated as equality of the multisets of values plus one visit per node, because node identity is not modelled.
- BinaryTrees.PostOrderSameVisits: the same as for pre-order.

## Findings

| source | as written | input that shows it | evidently intended | confidence | as-written member | corrected member |
|---|---|---|---|---|---|---|
| MyCalc/BinaryTree.swift:39-51 | `if case var .Node(left, value, right) = self` binds copies, and `left = node` / `right = node` assign only to those copies, so the tree never changes while `true` is returned | `Node(Empty, v, Empty).addNode(Node(Empty, w, Empty))` returns true; the receiver still has count 1 | the node is placed in the first empty child slot, so the count grows by the node's count | high, not executed | `BinaryTrees.AddNodeLosesTheNode` | `BinaryTrees.InsertNode` |
| MyCalc/BinaryTree.swift:53-60 | `value = newValue` assigns a pattern-bound copy, so the stored value never changes while `true` is returned | `Node(Empty, v, Empty).updateValue(w)` with `w != v` returns true; the receiver's in-order values are still `[v]` | the root value becomes `newValue` | high, not executed | `BinaryTrees.UpdateValueKeepsOldValue` | `BinaryTrees.WithValue` |

=== FILE: binary_tree.dfy ===
/** The generic binary tree: a value type, so every operation is a function of the tree. */
module BinaryTrees {

  datatype BinaryTree<T> = Node(left: BinaryTree<T>, value: T, right: BinaryTree<T>) | Empty

  /** The tree as text; `show` renders a value as string interpolation would. */
  function Description<T>(t: BinaryTree<T>, show: T -> string): string {
    match t
    case Node(left, value, right) =>
      "Value: " + show(value) + ", left = [" + Description(left, show) + "], right = [" + Description(right, show) + "]"
    case Empty => ""
  }

  /** The number of nodes. */
  function Count<T>(t: BinaryTree<T>): (r: nat)
    ensures r == 0 <==> t.Empty?
  {
    match t
    case Node(left, _, right) => Count(left) + 1 + Count(right)
    case Empty => 0
  }

  /** The success flag of addNode as written: the node would be placed in an empty child
      slot, but only a pattern-bound copy of that slot is assigned, so the receiver is
      left as it was. */
  function AddNode<T>(t: BinaryTree<T>, node: BinaryTree<T>): bool {
    match t
    case Node(left, _, right) => left.Empty? || right.Empty?
    case Empty => false
  }

  /** The success flag of updateValue as written: only a pattern-bound copy of the value is
      assigned, so the receiver is left as it was. */
  function UpdateValue<T>(t: BinaryTree<T>, newValue: T): bool {
    t.Node?
  }

  /** The values in the order an in-order traversal hands them to its callback. */
  function InOrder<T>(t: BinaryTree<T>): seq<T> {
    match t
    case Node(left, value, right) => InOrder(left) + [value] + InOrder(right)
    case Empty => []
  }

  function PreOrder<T>(t: BinaryTree<T>): seq<T> {
    match t
    case Node(left, value, right) => [value] + PreOrder(left) + PreOrder(right)
    case Empty => []
  }

  function PostOrder<T>(t: BinaryTree<T>): seq<T> {
    match t
    case Node(left, value, right) => PostOrder(left) + PostOrder(right) + [value]
    case Empty => []
  }

  // ---------------------------------------------------------------------------
  // Properties

  /** The empty tree renders as nothing; every node renders with its value and both
      bracketed children, so the text has at least thirty characters per node. */
  lemma {:induction false} DescriptionLength<T>(t: BinaryTree<T>, show: T -> string)
    ensures |Description(t, show)| >= 30 * Count(t)
    ensures Description(t, show) == "" <==> t.Empty?
    ensures t.Node? ==> "Value: " <= Description(t, show)
  {
    match t
    case Node(left, value, right) =>
      DescriptionLength(left, show);
      DescriptionLength(right, show);
    case Empty =>
  }

  /** An in-order traversal visits each node once: as many visits as there are nodes. */
  lemma {:induction false} InOrderVisitsEveryNode<T>(t: BinaryTree<T>)
    ensures |InOrder(t)| == Count(t)
  {
    match t
    case Node(left, _, right) =>
      InOrderVisitsEveryNode(left);
      InOrderVisitsEveryNode(right);
    case Empty =>
  }

  /** Pre-order visits the same values as in-order, as often, in another order. */
  lemma {:induction false} PreOrderSameVisits<T>(t: BinaryTree<T>)
    ensures multiset(PreOrder(t)) == multiset(InOrder(t))
    ensures |PreOrder(t)| == Count(t)
  {
    match t
    case Node(left, value, right) =>
      PreOrderSameVisits(left);
      PreOrderSameVisits(right);
      InOrderVisitsEveryNode(t);
    case Empty =>
  }

  /** Post-order visits the same values as in-order, as often, in another order. */
  lemma {:induction false} PostOrderSameVisits<T>(t: BinaryTree<T>)
    ensures multiset(PostOrder(t)) == multiset(InOrder(t))
    ensures |PostOrder(t)| == Count(t)
  {
    match t
    case Node(left, value, right) =>
      PostOrderSameVisits(left);
      PostOrderSameVisits(right);
      InOrderVisitsEveryNode(t);
    case Empty =>
  }

  lemma AddNodeSucceedsIff<T>(t: BinaryTree<T>, node: BinaryTree<T>)
    ensures AddNode(t, node) <==> t.Node? && (t.left == Empty || t.right == Empty)
  {
  }

  lemma UpdateValueSucceedsIff<T>(t: BinaryTree<T>, newValue: T)
    ensures UpdateValue(t, newValue) <==> Count(t) >= 1
  {
  }

  // ---------------------------------------------------------------------------
  // What addNode and updateValue evidently meant to do

  /** Places `node` in the left slot if it is empty, else in the right slot if that is
      empty; reports whether it did, with the same flag as addNode. */
  function InsertNode<T>(t: BinaryTree<T>, node: BinaryTree<T>): (r: (bool, BinaryTree<T>))
    ensures r.0 == AddNode(t, node)
    ensures !r.0 ==> r.1 == t
    ensures r.0 ==> Count(r.1) == Count(t) + Count(node)
    ensures r.0 ==> multiset(InOrder(r.1)) == multiset(InOrder(t)) + multiset(InOrder(node))
    ensures r.0 ==> r.1.Node? && r.1.value == t.value
    ensures r.0 && t.left.Empty? ==> r.1.left == node && r.1.right == t.right
    ensures r.0 && !t.left.Empty? ==> r.1.left == t.left && r.1.right == node
  {
    match t
    case Node(left, value, right) =>
      if left.Empty? then (true, Node(node, value, right))
      else if right.Empty? then (true, Node(left, value, node))
      else (false, t)
    case Empty => (false, t)
  }

  /** Replaces the root value of a node; reports whether it did, with the same flag as
      updateValue. */
  function WithValue<T>(t: BinaryTree<T>, newValue: T): (r: (bool, BinaryTree<T>))
    ensures r.0 == UpdateValue(t, newValue)
    ensures !r.0 ==> r.1 == t
    ensures r.0 ==> Count(r.1) == Count(t) && PreOrder(r.1) == [newValue] + PreOrder(t)[1..]
    ensures r.0 ==> InOrder(r.1) == InOrder(t.left) + [newValue] + InOrder(t.right)
    ensures r.0 ==> r.1.Node? && r.1.left == t.left && r.1.right == t.right && r.1.value == newValue
  {
    match t
    case Node(left, _, right) => (true, Node(left, newValue, right))
    case Empty => (false, t)
  }

  /** addNode reports success on a leaf, yet the receiver afterwards is the leaf itself,
      one node, while the insertion it reports would have made two. */
  lemma AddNodeLosesTheNode<T>(v: T, w: T)
    ensures var leaf, node := Node(Empty, v, Empty), Node(Empty, w, Empty);
      && AddNode(leaf, node)
      && Count(leaf) == 1
      && Count(InsertNode(leaf, node).1) == 2
  {
  }

  /** updateValue reports success on a leaf, yet the receiver afterwards still holds the
      old value, unlike the update it reports. */
  lemma UpdateValueKeepsOldValue<T>(v: T, w: T)
    requires v != w
    ensures var leaf := Node(Empty, v, Empty);
      && UpdateValue(leaf, w)
      && InOrder(leaf) == [v]
      && InOrder(WithValue(leaf, w).1) == [w]
  {
  }
}

=== FILE: calculator_brain.dfy ===
/** The calculator object: its fields are updated in place by each key press. Every
    key-press method is proved to move the object's state exactly as the matching
    function of CalculatorSpec says. */
module Calculator {
  import opened CalculatorSpec

  class CalculatorBrain {
    /** The arithmetic and number rendering the operations are built from. */
    const num: Numerics

    var accumulator: real
    var knownOperations: map<string, Op>
    /** Set by an operand; cleared only when a binary operation takes it as its first
        operand, or by a reset. */
    var newOperandEntered: bool
    var isPartialResult: bool
    var pendingOperation: Option<PendingBinaryOperationInfo>
    var description: string

    /** The operator table, once filled at construction, is never changed. */
    ghost predicate Valid()
      reads this
    {
      knownOperations == OperatorTable(num)
    }

    /** The part of the object that key presses change. */
    ghost function Snapshot(): State
      reads this
    {
      State(accumulator, pendingOperation, newOperandEntered, isPartialResult, description)
    }

    function Result(): real
      reads this
    {
      accumulator
    }

    constructor (n: Numerics)
      ensures Valid() && num == n
      ensures Snapshot() == Initial
    {
      num := n;
      accumulator := 0.0;
      knownOperations := map[];
      newOperandEntered := false;
      isPartialResult := false;
      pendingOperation := None;
      description := " ";
      new;
      LearnOp(Times(n));
      LearnOp(Divide(n));
      LearnOp(Plus(n));
      LearnOp(Minus(n));
      LearnOp(YRoot(n));
      LearnOp(Square(n));
      LearnOp(Cube(n));
      LearnOp(Power(n));
      LearnOp(SquareRoot(n));
      LearnOp(CubeRoot(n));
      LearnOp(Cosine(n));
      LearnOp(Sine(n));
      LearnOp(Tangent(n));
      LearnOp(ChangeSign(n));
      knownOperations := knownOperations["=" := Equals];
      knownOperations := knownOperations["π" := Constant(n.pi)];
      knownOperations := knownOperations["e" := Constant(n.e)];
    }

    /** Registers an operation under its own description. */
    method LearnOp(op: Op)
      modifies this`knownOperations
      ensures knownOperations == old(knownOperations)[OpDescription(op, num.show) := op]
    {
      knownOperations := knownOperations[OpDescription(op, num.show) := op];
    }

    method SetOperand(operand: real)
      requires Valid()
      modifies this
      ensures Valid()
      ensures Snapshot() == CalculatorSpec.SetOperand(old(Snapshot()), operand)
      ensures Result() == operand && newOperandEntered
    {
      accumulator := operand;
      newOperandEntered := true;
    }

    method PerformOperation(symbol: string)
      requires Valid()
      modifies this
      ensures Valid()
      ensures Snapshot() == CalculatorSpec.PerformOperation(OperatorTable(num), num.show, old(Snapshot()), symbol)
    {
      if symbol in knownOperations {
        match knownOperations[symbol]
        case Constant(value) =>
          accumulator := value;
          description := description + symbol + " ";
        case UnaryOperation(_, f, formatter) =>
          description := description + formatter(accumulator);
          accumulator := f(accumulator);
        case BinaryOperation(_, f, formatter) =>
          if newOperandEntered {
            ExecutePendingOperation();
            pendingOperation := Some(PendingBinaryOperationInfo(f, accumulator, formatter));
            newOperandEntered := false;
          } else {
            if pendingOperation.Some? {
              pendingOperation := Some(pendingOperation.value.(binaryFunction := f));
            }
          }
        case Equals =>
          ExecutePendingOperation();
      }
    }

    method ExecutePendingOperation()
      requires Valid()
      modifies this
      ensures Valid()
      ensures Snapshot() == CalculatorSpec.ExecutePendingOperation(old(Snapshot()), num.show)
    {
      if pendingOperation.Some? {
        var p := pendingOperation.value;
        description := description + p.formatFunction(num.show(p.firstOperand), num.show(accumulator));
        accumulator := p.binaryFunction(p.firstOperand, accumulator);
        pendingOperation := None;
        description := description + " =";
      }
      isPartialResult := false;
    }

    method Reset()
      requires Valid()
      modifies this
      ensures Valid()
      ensures Snapshot() == CalculatorSpec.Reset(old(Snapshot()))
    {
      accumulator := 0.0;
      pendingOperation := None;
      newOperandEntered := false;
      description := " ";
    }
  }

  /** A caller driving the object through "2 + 3 × 4 =" sees the left-to-right result. */
  method NoPrecedenceClient(n: Numerics) returns (result: real)
    ensures result == n.multiply(n.add(2.0, 3.0), 4.0)
  {
    var brain := new CalculatorBrain(n);
    brain.SetOperand(2.0);
    brain.PerformOperation("+");
    brain.SetOperand(3.0);
    brain.PerformOperation("×");
    brain.SetOperand(4.0);
    brain.PerformOperation("=");
    result := brain.Result();
  }
}

=== FILE: calculator_spec.dfy ===
/** The state machine behind the calculator, as values: the operations it knows, the
    operator table built once at start-up, and each transition as a function of the old
    state. The class in calculator_brain.dfy is proved to follow these functions. */
module CalculatorSpec {

  datatype Option<T> = None | Some(value: T)

  /** Floating-point arithmetic and the rendering of a number as text are not modelled:
      they are the operations the operator table is built from, supplied from outside. */
  datatype Numerics = Numerics(
    multiply: (real, real) -> real,
    divide: (real, real) -> real,
    add: (real, real) -> real,
    subtract: (real, real) -> real,
    pow: (real, real) -> real,
    sqrt: real -> real,
    cos: real -> real,
    sin: real -> real,
    tan: real -> real,
    negate: real -> real,
    pi: real,
    e: real,
    show: real -> string)

  /** An operation of the calculator: a constant, a unary or binary operation with its
      numeric function and its formatter, or the equals key. */
  datatype Op =
    | Constant(value: real)
    | UnaryOperation(symbol: string, apply: real -> real, formatter: real -> string)
    | BinaryOperation(symbol: string, combine: (real, real) -> real, format: (string, string) -> string)
    | Equals

  /** The text an operation is known by; a constant is known by its rendered value. */
  function OpDescription(op: Op, show: real -> string): string {
    match op
    case Constant(v) => show(v)
    case UnaryOperation(symbol, _, _) => symbol
    case BinaryOperation(symbol, _, _) => symbol
    case Equals => "="
  }

  // The operations registered at start-up, one function each.

  function Times(n: Numerics): Op {
    BinaryOperation("×", n.multiply, (a: string, b: string) => a + " × " + b)
  }

  function Divide(n: Numerics): Op {
    BinaryOperation("÷", n.divide, (a: string, b: string) => a + " ÷ " + b)
  }

  function Plus(n: Numerics): Op {
    BinaryOperation("+", n.add, (a: string, b: string) => a + " + " + b)
  }

  function Minus(n: Numerics): Op {
    BinaryOperation("−", n.subtract, (a: string, b: string) => a + " − " + b)
  }

  /** The y-th root of x; its formatter puts the index first. */
  function YRoot(n: Numerics): Op {
    BinaryOperation("ʸ√", (x: real, y: real) => n.pow(x, n.divide(1.0, y)), (a: string, b: string) => b + " √ " + a)
  }

  function Square(n: Numerics): Op {
    UnaryOperation("x²", (x: real) => n.pow(x, 2.0), (x: real) => n.show(x) + "^2")
  }

  function Cube(n: Numerics): Op {
    UnaryOperation("x³", (x: real) => n.pow(x, 3.0), (x: real) => n.show(x) + "^3")
  }

  function Power(n: Numerics): Op {
    BinaryOperation("xʸ", n.pow, (a: string, b: string) => a + "^" + b)
  }

  function SquareRoot(n: Numerics): Op {
    UnaryOperation("√", n.sqrt, (x: real) => "√" + n.show(x))
  }

  function CubeRoot(n: Numerics): Op {
    UnaryOperation("∛", (x: real) => n.pow(x, n.divide(1.0, 3.0)), (x: real) => "3√" + n.show(x))
  }

  function Cosine(n: Numerics): Op {
    UnaryOperation("cos", n.cos, (x: real) => "cos(" + n.show(x) + ")")
  }

  function Sine(n: Numerics): Op {
    UnaryOperation("sin", n.sin, (x: real) => "sin(" + n.show(x) + ")")
  }

  /** Computes the tangent but renders as a cosine, exactly as registered. */
  function Tangent(n: Numerics): Op {
    UnaryOperation("tan", n.tan, (x: real) => "cos(" + n.show(x) + ")")
  }

  function ChangeSign(n: Numerics): Op {
    UnaryOperation("⁺/₋", n.negate, (x: real) => "-(" + n.show(x) + ")")
  }

  /** The symbols of the operator table, in the order start-up registers them. */
  const SymbolList: seq<string> :=
    ["×", "÷", "+", "−", "ʸ√", "x²", "x³", "xʸ", "√", "∛", "cos", "sin", "tan", "⁺/₋", "=", "π", "e"]

  const Symbols: set<string> := set x | x in SymbolList

  predicate Distinct(l: seq<string>) {
    forall i, j :: 0 <= i < j < |l| ==> l[i] != l[j]
  }

  lemma {:induction false} DistinctCardinality(l: seq<string>)
    requires Distinct(l)
    ensures |(set x | x in l)| == |l|
  {
    if l != [] {
      DistinctCardinality(l[1..]);
      assert (set x | x in l) == (set x | x in l[1..]) + {l[0]};
      assert l[0] !in l[1..];
    }
  }

  /** The operator table as it stands once start-up has registered every operation. */
  function OperatorTable(n: Numerics): map<string, Op> {
    map[
      "×" := Times(n), "÷" := Divide(n), "+" := Plus(n), "−" := Minus(n),
      "ʸ√" := YRoot(n), "x²" := Square(n), "x³" := Cube(n), "xʸ" := Power(n),
      "√" := SquareRoot(n), "∛" := CubeRoot(n), "cos" := Cosine(n), "sin" := Sine(n),
      "tan" := Tangent(n), "⁺/₋" := ChangeSign(n),
      "=" := Equals, "π" := Constant(n.pi), "e" := Constant(n.e)]
  }

  /** The seventeen symbols are all different. */
  lemma SymbolCount()
    ensures |Symbols| == 17
  {
    assert Distinct(SymbolList);
    DistinctCardinality(SymbolList);
  }

  /** The table holds exactly the seventeen symbols. */
  lemma OperatorTableSymbols(n: Numerics)
    ensures OperatorTable(n).Keys == Symbols
  {
  }

  /** Every operation but the two constants is keyed by its own description; the constants
      are keyed by their names and hold pi and e. */
  lemma OperatorTableKeyedBySymbol(n: Numerics)
    ensures forall k :: k in OperatorTable(n) && k != "π" && k != "e" ==> OpDescription(OperatorTable(n)[k], n.show) == k
    ensures OperatorTable(n)["π"] == Constant(n.pi) && OperatorTable(n)["e"] == Constant(n.e)
  {
  }

  /** The formatter registered for "tan" renders a cosine although the function is the tangent. */
  lemma TangentRendersCosine(n: Numerics, x: real)
    ensures OperatorTable(n)["tan"].UnaryOperation?
    ensures OperatorTable(n)["tan"].apply == n.tan
    ensures OperatorTable(n)["tan"].formatter(x) == "cos(" + n.show(x) + ")"
  {
  }

  /** A binary operation whose first operand is captured, waiting for the second one. */
  datatype PendingBinaryOperationInfo = PendingBinaryOperationInfo(
    binaryFunction: (real, real) -> real,
    firstOperand: real,
    formatFunction: (string, string) -> string)

  /** Everything the calculator changes after start-up. */
  datatype State = State(
    accumulator: real,
    pendingOperation: Option<PendingBinaryOperationInfo>,
    newOperandEntered: bool,
    isPartialResult: bool,
    description: string)

  /** The state right after start-up. */
  const Initial: State := State(0.0, None, false, false, " ")

  function SetOperand(s: State, operand: real): State {
    s.(accumulator := operand, newOperandEntered := true)
  }

  /** Resolves the pending operation, if any, against the accumulator. */
  function ExecutePendingOperation(s: State, show: real -> string): (r: State)
    ensures r.pendingOperation == None && !r.isPartialResult
    ensures r.newOperandEntered == s.newOperandEntered
    ensures s.description <= r.description
  {
    match s.pendingOperation
    case Some(p) =>
      var text := p.formatFunction(show(p.firstOperand), show(s.accumulator));
      s.(description := s.description + text + " =",
         accumulator := p.binaryFunction(p.firstOperand, s.accumulator),
         pendingOperation := None,
         isPartialResult := false)
    case None =>
      s.(isPartialResult := false)
  }

  /** One key press of an operation symbol, looked up in the table; an unknown symbol is ignored. */
  function PerformOperation(table: map<string, Op>, show: real -> string, s: State, symbol: string): (r: State)
    ensures r.isPartialResult ==> s.isPartialResult
    ensures s.description <= r.description
  {
    if symbol !in table then s
    else
      match table[symbol]
      case Constant(value) =>
        s.(accumulator := value, description := s.description + symbol + " ")
      case UnaryOperation(_, f, formatter) =>
        s.(description := s.description + formatter(s.accumulator), accumulator := f(s.accumulator))
      case BinaryOperation(_, f, formatter) =>
        if s.newOperandEntered then
          var resolved := ExecutePendingOperation(s, show);
          resolved.(pendingOperation := Some(PendingBinaryOperationInfo(f, resolved.accumulator, formatter)),
                    newOperandEntered := false)
        else if s.pendingOperation.Some? then
          s.(pendingOperation := Some(s.pendingOperation.value.(binaryFunction := f)))
        else
          s
      case Equals =>
        ExecutePendingOperation(s, show)
  }

  /** Back to the start-up values; the partial-result flag is not touched. */
  function Reset(s: State): State {
    s.(accumulator := 0.0, pendingOperation := None, newOperandEntered := false, description := " ")
  }

  // ---------------------------------------------------------------------------
  // Single transitions

  lemma SetOperandStep(s: State, x: real)
    ensures SetOperand(s, x).accumulator == x && SetOperand(s, x).newOperandEntered
    ensures SetOperand(s, x).pendingOperation == s.pendingOperation
    ensures SetOperand(s, x).description == s.description
    ensures SetOperand(s, x).isPartialResult == s.isPartialResult
  {
  }

  lemma UnknownSymbolIsIgnored(n: Numerics, s: State, symbol: string)
    requires symbol !in Symbols
    ensures PerformOperation(OperatorTable(n), n.show, s, symbol) == s
  {
    OperatorTableSymbols(n);
  }

  /** A constant loads its value and appends its own key, leaving the rest alone. */
  lemma ConstantStep(n: Numerics, s: State, symbol: string)
    requires symbol == "π" || symbol == "e"
    ensures var r := PerformOperation(OperatorTable(n), n.show, s, symbol);
      && r.accumulator == (if symbol == "π" then n.pi else n.e)
      && r.description == s.description + symbol + " "
      && r.pendingOperation == s.pendingOperation
      && r.newOperandEntered == s.newOperandEntered
      && r.isPartialResult == s.isPartialResult
  {
  }

  /** A unary operation appends the formatted old accumulator, then applies its function to it. */
  lemma UnaryStep(table: map<string, Op>, show: real -> string, s: State, symbol: string)
    requires symbol in table && table[symbol].UnaryOperation?
    ensures var op, r := table[symbol], PerformOperation(table, show, s, symbol);
      && r.description == s.description + op.formatter(s.accumulator)
      && r.accumulator == op.apply(s.accumulator)
      && r.pendingOperation == s.pendingOperation
      && r.newOperandEntered == s.newOperandEntered
      && r.isPartialResult == s.isPartialResult
  {
  }

  /** After a fresh operand, a binary operation resolves the pending one and opens a new one
      whose first operand is the accumulator after that resolution. */
  lemma BinaryAfterOperand(table: map<string, Op>, show: real -> string, s: State, symbol: string)
    requires symbol in table && table[symbol].BinaryOperation?
    requires s.newOperandEntered
    ensures var op, m, r := table[symbol], ExecutePendingOperation(s, show), PerformOperation(table, show, s, symbol);
      && r.pendingOperation == Some(PendingBinaryOperationInfo(op.combine, m.accumulator, op.format))
      && r.accumulator == m.accumulator
      && r.description == m.description
      && !r.newOperandEntered
      && !r.isPartialResult
  {
  }

  /** Without a fresh operand a binary operation only swaps the pending combine function:
      the first operand and the formatter stay, and with nothing pending nothing changes. */
  lemma BinaryChangedMind(table: map<string, Op>, show: real -> string, s: State, symbol: string)
    requires symbol in table && table[symbol].BinaryOperation?
    requires !s.newOperandEntered
    ensures var op, r := table[symbol], PerformOperation(table, show, s, symbol);
      && (s.pendingOperation == None ==> r == s)
      && (s.pendingOperation.Some? ==>
            && r.pendingOperation.Some?
            && r.pendingOperation.value.binaryFunction == op.combine
            && r.pendingOperation.value.firstOperand == s.pendingOperation.value.firstOperand
            && r.pendingOperation.value.formatFunction == s.pendingOperation.value.formatFunction
            && r == s.(pendingOperation := r.pendingOperation))
  {
  }

  /** The equals key resolves a pending operation; without one it changes neither the
      accumulator nor the description. */
  lemma EqualsStep(n: Numerics, s: State)
    ensures var r := PerformOperation(OperatorTable(n), n.show, s, "=");
      && r.pendingOperation == None
      && !r.isPartialResult
      && r.newOperandEntered == s.newOperandEntered
      && (s.pendingOperation == None ==> r.accumulator == s.accumulator && r.description == s.description)
      && (s.pendingOperation.Some? ==>
            var p := s.pendingOperation.value;
            && r.accumulator == p.binaryFunction(p.firstOperand, s.accumulator)
            && r.description == s.description + p.formatFunction(n.show(p.firstOperand), n.show(s.accumulator)) + " =")
  {
  }

  /** Pressing equals twice is the same as pressing it once. */
  lemma EqualsTwiceIsOnce(n: Numerics, s: State)
    ensures var once := PerformOperation(OperatorTable(n), n.show, s, "=");
      PerformOperation(OperatorTable(n), n.show, once, "=") == once
  {
  }

  lemma ResetRestoresStartUp(s: State)
    ensures Reset(s) == Initial.(isPartialResult := s.isPartialResult)
  {
  }

  // ---------------------------------------------------------------------------
  // Sequences of key presses

  /** What the controller feeds the calculator: an operand, an operation symbol or a reset. */
  datatype Input = Operand(x: real) | Operation(symbol: string) | Clear

  function Step(n: Numerics, s: State, input: Input): State {
    match input
    case Operand(x) => SetOperand(s, x)
    case Operation(symbol) => PerformOperation(OperatorTable(n), n.show, s, symbol)
    case Clear => Reset(s)
  }

  function Run(n: Numerics, s: State, inputs: seq<Input>): State
    decreases |inputs|
  {
    if inputs == [] then s else Run(n, Step(n, s, inputs[0]), inputs[1..])
  }

  predicate NoClear(inputs: seq<Input>) {
    forall i :: 0 <= i < |inputs| ==> !inputs[i].Clear?
  }

  /** Without a reset, the description only ever grows by appending. */
  lemma {:induction false} DescriptionOnlyGrows(n: Numerics, s: State, inputs: seq<Input>)
    requires NoClear(inputs)
    ensures s.description <= Run(n, s, inputs).description
    decreases |inputs|
  {
    if inputs != [] {
      var next := Step(n, s, inputs[0]);
      assert s.description <= next.description;
      assert NoClear(inputs[1..]) by {
        forall i | 0 <= i < |inputs[1..]| ensures !inputs[1..][i].Clear? {
          assert inputs[1..][i] == inputs[i + 1];
        }
      }
      DescriptionOnlyGrows(n, next, inputs[1..]);
    }
  }

  /** Starting from start-up, the description always begins with the single blank
      that start-up and reset put there. */
  lemma {:induction false} DescriptionStartsWithBlank(n: Numerics, s: State, inputs: seq<Input>)
    requires " " <= s.description
    ensures " " <= Run(n, s, inputs).description
    decreases |inputs|
  {
    if inputs != [] {
      var next := Step(n, s, inputs[0]);
      assert " " <= next.description by {
        if !inputs[0].Clear? {
          assert s.description <= next.description;
        }
      }
      DescriptionStartsWithBlank(n, next, inputs[1..]);
    }
  }

  /** No key press ever sets the partial-result flag: started false, it stays false. */
  lemma {:induction false} NeverPartial(n: Numerics, s: State, inputs: seq<Input>)
    ensures Run(n, s, inputs).isPartialResult ==> s.isPartialResult
    decreases |inputs|
  {
    if inputs != [] {
      var next := Step(n, s, inputs[0]);
      assert next.isPartialResult ==> s.isPartialResult;
      NeverPartial(n, next, inputs[1..]);
    }
  }

  lemma {:induction false} RunAppend(n: Numerics, s: State, a: seq<Input>, b: seq<Input>)
    ensures Run(n, s, a + b) == Run(n, Run(n, s, a), b)
    decreases |a|
  {
    if a == [] {
      assert a + b == b;
    } else {
      assert (a + b)[0] == a[0];
      assert (a + b)[1..] == a[1..] + b;
      RunAppend(n, Step(n, s, a[0]), a[1..], b);
    }
  }

  /** A reset anywhere forgets everything before it except the partial-result flag. */
  lemma ResetForgetsHistory(n: Numerics, s: State, before: seq<Input>, after: seq<Input>)
    ensures Run(n, s, before + [Clear] + after)
         == Run(n, Initial.(isPartialResult := Run(n, s, before).isPartialResult), after)
  {
    RunAppend(n, s, before + [Clear], after);
    RunAppend(n, s, before, [Clear]);
  }

  // ---------------------------------------------------------------------------
  // Worked key sequences

  /** "2 + 3 × 4 =" evaluates strictly left to right: there is no precedence, and the
      description records each resolution followed by " =". */
  lemma NoPrecedence(n: Numerics)
    ensures var r := Run(n, Initial, [Operand(2.0), Operation("+"), Operand(3.0), Operation("×"), Operand(4.0), Operation("=")]);
      var sum := n.add(2.0, 3.0);
      && r.accumulator == n.multiply(sum, 4.0)
      && r.pendingOperation == None
      && r.description == " " + n.show(2.0) + " + " + n.show(3.0) + " =" + n.show(sum) + " × " + n.show(4.0) + " ="
  {
  }

  /** After "2 +" an operation is pending, yet the partial-result flag is false. */
  lemma PartialFlagIgnoresPending(n: Numerics)
    ensures var r := Run(n, Initial, [Operand(2.0), Operation("+")]);
      r.pendingOperation.Some? && !r.isPartialResult
  {
  }

  /** A constant leaves the new-operand flag as it was. Right after start-up the flag is
      false, so in "π × 2 =" the × finds no fresh operand and nothing pending: it is
      dropped and the result is 2. */
  lemma ConstantIsNotAnOperand(n: Numerics)
    ensures var r := Run(n, Initial, [Operation("π"), Operation("×"), Operand(2.0), Operation("=")]);
      && r.accumulator == 2.0
      && r.pendingOperation == None
      && r.description == " π "
  {
  }

  /** Once an operand has been entered the flag stays set through a constant, so in
      "5 π × 2 =" the constant replaces the operand and the × takes it: the result is π × 2. */
  lemma ConstantAfterOperandIsTaken(n: Numerics)
    ensures var r := Run(n, Initial, [Operand(5.0), Operation("π"), Operation("×"), Operand(2.0), Operation("=")]);
      && r.accumulator == n.multiply(n.pi, 2.0)
      && r.pendingOperation == None
  {
  }

  /** "=" does not clear the flag either: after "2 + 3 =" a constant followed by × opens
      a pending multiplication whose first operand is the constant. */
  lemma ConstantAfterResultIsTaken(n: Numerics)
    ensures var r := Run(n, Initial, [Operand(2.0), Operation("+"), Operand(3.0), Operation("="), Operation("π"), Operation("×")]);
      && r.pendingOperation.Some?
      && r.pendingOperation.value.firstOperand == n.pi
      && r.pendingOperation.value.binaryFunction == n.multiply
  {
  }

  /** With the flag clear and an operation pending, a binary operation after a constant
      only swaps the pending combine function: in "5 + π × 2 =" the π is discarded and
      the result is 5 × 2, rendered with the "+" formatter. */
  lemma ConstantDiscardedBySwap(n: Numerics)
    ensures var r := Run(n, Initial, [Operand(5.0), Operation("+"), Operation("π"), Operation("×"), Operand(2.0), Operation("=")]);
      && r.accumulator == n.multiply(5.0, 2.0)
      && r.pendingOperation == None
      && r.description == " π " + n.show(5.0) + " + " + n.show(2.0) + " ="
  {
  }

  /** "=" clears only the pending operation, not the flag, and the flag is already clear
      once a binary operation has taken the operand: after "5 + =" a constant followed
      by × finds the flag clear and nothing pending, so the × is dropped. */
  lemma ConstantDroppedAfterResolvedOperation(n: Numerics)
    ensures var r := Run(n, Initial, [Operand(5.0), Operation("+"), Operation("="), Operation("π"), Operation("×")]);
      && r.pendingOperation == None
      && r.accumulator == n.pi
      && !r.newOperandEntered
  {
  }

  /** "5 + − 3 =" subtracts, but the description keeps the formatter of the first choice. */
  lemma ChangedMindKeepsFormatter(n: Numerics)
    ensures var r := Run(n, Initial, [Operand(5.0), Operation("+"), Operation("−"), Operand(3.0), Operation("=")]);
      && r.accumulator == n.subtract(5.0, 3.0)
      && r.description == " " + n.show(5.0) + " + " + n.show(3.0) + " ="
  {
  }
}
